=== FILE: README.md ===
# everyfinnishno — a Dafny model

`everyfinnishno.py` is a small Twitter bot. Each run does the following:

- it loads a YAML state file holding four OAuth credentials, a counter
  (`last_number`) and a mention marker (`last_mention_id`);
- it posts the counter's number followed by its Finnish spelling;
- it advances the counter and saves the state;
- it answers the mentions newer than the marker.

A mention gets an answer when the first all-digit word of its text is a
non-zero number. Commas are removed and trailing question marks stripped
before the words are read, so "0 or 5" and "Say 7." get no answer (see
`Replies.ExampleZeroFirst` and `Replies.ExampleTrailingPeriod`). The bot
replies to the author with that number's post, unless the mention already
contains the Finnish form. After each mention the
bot moves the marker to that mention's id and saves again.

The model follows the program's structure, one module per concern:

| module | file | models |
|---|---|---|
| `Wrappers` | wrappers.dfy | `Option` for `None`-or-value returns, `Result` for the exit path |
| `Strings` | strings.dfy | `replace(",", "")`, `rstrip(c)`, argument-less `split()`, `needle in hay` |
| `Decimal` | decimal.dfy | `str(n)` and `int(s)` on ASCII digits, with both round trips |
| `Extract` | extract.dfy | `extract_number_from_tweet` |
| `Compose` | compose.dfy | `build_tweet` and its 140-character cap |
| `Config` | config.dfy | `load_yaml` once the file is parsed: the credential check and the defaults |
| `Replies` | replies.dfy | `tweet_it`'s empty-text guard, one mention's reply decision, the `check_replies` loop |
| `Bot` | bot.dfy | the `__main__` sequence: load, post, count, save, check replies |

Effects are modelled as data:

- A run's effects form one ordered log of events. Each event is either
  `Posted(p)`, a post handed to the publisher with its
  `in_reply_to_status_id`, or `Saved(d)`, a snapshot of the state written
  by `save_yaml`. Keeping both kinds in one sequence preserves their
  interleaving: which save follows which post.
- The translator `fino.to_finnish` is a parameter `translate`.
- The mentions query is a parameter `timeline`. It maps a marker to the
  mentions newer than it, newest first.

A word such as "-5" fails `isdigit`, so "-5 degrees" yields `None`; see
`Extract.ExampleNegative`.

## Model

| member | source | states |
|---|---|---|
| Strings.RemoveCommas | everyfinnishno.py:143 | the result has no comma, is no longer than the input, and is the input itself when the input has no comma |
| Strings.RemoveCommasContent | everyfinnishno.py:143 | deleting commas keeps every other character exactly as often as before (multiset equality) |
| Strings.RemoveCommasConcat | everyfinnishno.py:143 | comma deletion distributes over concatenation |
| Strings.RStrip | everyfinnishno.py:143 | the result is a prefix of the input that does not end in the stripped character, and everything cut off is that character |
| Strings.RStripUnique | everyfinnishno.py:143 | those three properties determine the result of `rstrip` uniquely |
| Strings.RStripKeepsHead | everyfinnishno.py:143 | stripping only touches the end: a prefix not ending in the character is kept in front |
| Strings.Split | everyfinnishno.py:146 | every token of `split()` is non-empty and free of whitespace |
| Strings.SplitSkipSpace | everyfinnishno.py:146 | leading whitespace does not change the tokens |
| Strings.SplitLeadingWord | everyfinnishno.py:146 | a word at the start that is followed by the end or by whitespace is the first token |
| Strings.SplitInterleave | everyfinnishno.py:146 | for any words laid out with any whitespace around and between them, `split()` returns exactly those words |
| Strings.Contains | everyfinnishno.py:127 | `needle in hay` holds iff the needle occurs at some position of the text |
| Strings.ContainsSuffix | everyfinnishno.py:127 | a text contains every string it ends with |
| Decimal.ParseAppend | everyfinnishno.py:146 | appending a digit to a numeral multiplies its `int` value by ten and adds the digit |
| Decimal.ParseDigits | everyfinnishno.py:146 | `int(s)` ignores leading zeros: a numeral starting with '0' has the value of the rest of it |
| Decimal.NatToString | everyfinnishno.py:60 | `str(n)` of a natural number is all digits, with no leading zero except in "0" |
| Decimal.IntToString | everyfinnishno.py:60 | `str(i)` of a natural number is the canonical numeral whose value is `i`; of a negative integer, a minus sign before the canonical numeral whose value is `-i` |
| Decimal.ParseNatToString | everyfinnishno.py:60 | `int(str(n)) == n` for every natural number |
| Decimal.NatToStringParse | everyfinnishno.py:146 | `str(int(s)) == s` for every numeral without a leading zero |
| Extract.Normalize | everyfinnishno.py:143 | the text after comma removal and `rstrip("?")` has no comma and does not end in '?' |
| Extract.FirstNumber | everyfinnishno.py:146-150 | `None` iff no token is all digits; otherwise the `int` value of the first all-digit token |
| Extract.ExtractNumber | everyfinnishno.py:141-150 | `None` iff no word of the normalized text is all digits; otherwise the value of the first such word |
| Extract.LeadingNumeral | everyfinnishno.py:141-150 | a text starting with digits (commas allowed among them) and then whitespace yields the value of those digits |
| Extract.GroupedNumeral | everyfinnishno.py:142-148 | digit groups joined by a comma are read as one number |
| Extract.NoNumeralWord | everyfinnishno.py:143-150 | a text with no comma, not ending in '?', whose words are all non-numeric yields `None` |
| Extract.ExampleThousands | everyfinnishno.py:143-148 | "1,234 reindeer?" yields 1234 |
| Extract.ExampleNegative | everyfinnishno.py:146-150 | "-5 degrees" yields `None`, because "-5" is not all digits |
| Extract.ExampleInnerQuestionMark | everyfinnishno.py:143-150 | "5? ok" yields `None`: only the end of the whole text loses its '?' |
| Extract.ExampleNoDigits | everyfinnishno.py:146-150 | "no digits here" yields `None` |
| Compose.Header | everyfinnishno.py:57-60 | the header is "@" + handle + " " when a handle is given (and starts with '@' only then), followed by `str(number)` and a space |
| Compose.Untruncated | everyfinnishno.py:57-60 | the uncapped post is the header followed by exactly the translation |
| Compose.Truncate | everyfinnishno.py:62-64 | at most 140 characters; unchanged if it fits; otherwise the first 139 characters followed by '…' |
| Compose.BuildTweet | everyfinnishno.py:56-66 | a non-empty post of at most 140 characters: the header and translation when they fit, otherwise their first 139 characters and '…' |
| Compose.TruncateIdempotent | everyfinnishno.py:62-64 | capping a capped text changes nothing |
| Compose.TruncateKeepsPrefix | everyfinnishno.py:62-64 | the cap keeps every prefix shorter than 140 characters |
| Compose.BuildTweetKeepsHeader | everyfinnishno.py:57-64 | when the header fits, the post starts with "@handle " (if any), the decimal number and a space |
| Config.LoadConfig | everyfinnishno.py:37-48 | fails with the "credentials missing" message iff a credential key is absent; otherwise keeps every key and value, and adds `last_number: 0` and `last_mention_id: 1` only where absent |
| Config.LoadConfigIdempotent | everyfinnishno.py:42-46 | loading an already loaded state gives it back unchanged |
| Replies.Publish | everyfinnishno.py:69-73 | an empty text leaves the log as it was; any other text is appended as one post; either way nothing is saved, and non-empty posts stay non-empty |
| Replies.Reverse | everyfinnishno.py:115 | `reversed` puts element `i` at position `n-1-i` |
| Replies.ReplyFor | everyfinnishno.py:122-132 | no reply without a number or for 0; for a positive number, a reply iff the text lacks its translation; a reply answers the mention's id with `build_tweet(number, author)` |
| Replies.RepliesTo | everyfinnishno.py:115-132 | there are never more replies than mentions handled |
| Replies.RepliesToMembers | everyfinnishno.py:115-132 | a post is sent iff some handled mention calls for exactly that post |
| Replies.RepliesWellFormed | everyfinnishno.py:124-132 | every reply is non-empty, at most 140 characters and in reply to a status |
| Replies.HeadReply | everyfinnishno.py:124-132 | a post is sent for one mention exactly when the reply decision makes it |
| Replies.ResponderAnswers | everyfinnishno.py:130-132 | every reply is sent in reply to the id of the mention it answers |
| Replies.Turn | everyfinnishno.py:124-138 | the effects of one mention: its only post is the reply, if one is sent, and it saves exactly once, last, the state marked with the mention's id |
| Replies.TracePosts | everyfinnishno.py:115-132 | the posts of the loop's effects are exactly the replies the mentions call for, in order |
| Replies.TraceSaves | everyfinnishno.py:115-138 | the saves of the loop's effects are, for each mention in order, the state with the marker at its id |
| Replies.TraceReplyThenMark | everyfinnishno.py:130-138 | every reply in the log is immediately followed by the save that marks as handled the mention it answers |
| Replies.Step | everyfinnishno.py:122-138 | one turn: the marker becomes the mention's id, no other key changes, and the log grows by exactly that mention's turn |
| Replies.Scan | everyfinnishno.py:115-138 | handling a list appends the turns of its mentions to the log, in order, and leaves the marker at the last mention handled (unchanged for an empty list) |
| Replies.ScanConcat | everyfinnishno.py:115-138 | handling two lists in turn is handling their concatenation |
| Replies.CheckReplies | everyfinnishno.py:102-138 | mentions are handled oldest first: the posts added are the replies the reversed list calls for, the saves added are one marked state per mention in that order, and the marker ends at the newest id, or nothing changes when there are no mentions |
| Replies.CheckRepliesWellFormed | everyfinnishno.py:130-132 | handling mentions keeps every post in the log non-empty and within 140 characters |
| Replies.ReadBackText | everyfinnishno.py:141-150 | any text that starts with a numeral and a space yields that numeral's value |
| Replies.ReadBackOwnNumber | everyfinnishno.py:60 | the number a plain post was built from is the number extraction finds in it |
| Replies.RetweetNotAnswered | everyfinnishno.py:125-128 | a mention repeating a whole plain post of the bot gets no reply |
| Replies.ExampleZeroFirst | everyfinnishno.py:122-124 | "0 or 5" reads as 0, the first all-digit word, and gets no reply |
| Replies.ExampleTrailingPeriod | everyfinnishno.py:122-124 | "Say 7." yields no number, because "7." is not all digits, and gets no reply |
| Bot.Run | everyfinnishno.py:169-181 | exits with the message iff a credential is missing; stops iff the counter is present but not an integer; otherwise the log is the counter post, the save of the advanced state, then each mention's reply (if any) and marked save, oldest first; every post is well-formed; the counter ends one higher, the marker at the newest mention, and other keys are untouched |
| Bot.Counted | everyfinnishno.py:169-179 | the state saved after the counter post has the file's keys plus the two defaults, the counter one higher, the marker as loaded, and every other key as in the file |
| Bot.Proceed | everyfinnishno.py:171-181 | after loading: the log starts with the counter post and then a save holding `n + 1`, followed by the turns of the mentions newer than the stored marker; the posts are the counter post then the replies, the saves the counted state then one marked state per mention |
| Bot.MarkerEndsAtNewest | everyfinnishno.py:113-138 | mentions retrieved as 9, 7, 5 are saved with the marker at 5, then 7, then 9, and the marker ends at 9 |

## Left out

- The Twitter API, OAuth and the global client cache (lines 17, 75-99, 103-113) are left out: they are remote I/O. Publishing appends a `Posted` event to the log, and the mentions query is the `timeline` parameter, which is trusted to return mentions newer than the marker, newest first.
- `fino.to_finnish` is not part of this model; it is the `translate` parameter.
- File reading, YAML parsing and `save_yaml` are left out as I/O. The model starts from the parsed mapping and records each save as a `Saved` event holding a snapshot of the state.
- Values in the state file are integers or strings only; YAML booleans, floats and nulls are left out.
- The argument parser, `--no-web`, the browser, `print_it` and the coordinates are left out as output and configuration.
- Test mode is left out. It skips publishing and saving; the model describes a normal run, which publishes and saves.
- Bot.Run: with a `last_number` that is not an integer, the source calls `build_tweet` with it (the outcome depends on the translator) and then fails on `+= 1`; the model stops before posting, as `CounterNotInteger`.
- Remote failures (a rejected post, a failed query) are not modelled.
- Lengths are counted in characters (code points). A narrow Python 2 build counts UTF-16 units, which is not modelled.
- Whitespace is limited to the ASCII characters that `split()` treats as whitespace, and digits to ASCII digits. Other Unicode whitespace and digits are left out. That includes words such as "²", which `isdigit` accepts and on which `int` would raise.
- Compose.BuildTweetKeepsHeader requires the header ("@handle ", the number and a space) to be shorter than 140 characters, because a header of 140 or more characters loses its end to the cut whenever the translation is non-empty.
- Replies.ReadBackOwnNumber requires the number's digits and the following space to survive the cut.

=== FILE: bot.dfy ===
/** The entry point: load the state, post the counter's number, advance and
    save the counter, then answer the mentions that arrived since the marker. */
module Bot {
  import opened Wrappers
  import opened Compose
  import opened Config
  import opened Replies

  /** How a run ends: the process exits with a message, the counter is not an
      integer, or the run completes with its session. */
  datatype RunResult = Exited(message: string) | CounterNotInteger | Completed(session: Session)

  /** The marker the mentions are fetched from: the stored one, or the default. */
  function Since(raw: Data): Value {
    if LastMentionKey in raw then raw[LastMentionKey] else Int(1)
  }

  /** The number this run posts: the stored integer counter, or 0 when absent. */
  function Counter(raw: Data): int {
    if LastNumberKey in raw && raw[LastNumberKey].Int? then raw[LastNumberKey].i else 0
  }

  /** The state written after the counter post: the loaded state with the
      counter advanced by one. */
  function Counted(filename: string, raw: Data): (d: Data)
    requires LoadConfig(filename, raw).Success?
    ensures d.Keys == raw.Keys + {LastNumberKey, LastMentionKey}
    ensures d[LastNumberKey] == Int(Counter(raw) + 1)
    ensures d[LastMentionKey] == Since(raw)
    ensures forall k :: k in raw && k != LastNumberKey ==> d[k] == raw[k]
  {
    LoadConfig(filename, raw).value[LastNumberKey := Int(Counter(raw) + 1)]
  }

  /** The post of the counter's number. */
  function CounterPost(raw: Data, translate: int -> string): Post {
    Post(BuildTweet(Counter(raw), "", translate), None)
  }

  /** One invocation. `raw` is the parsed state file, `timeline` stands for the
      remote mentions query (the mentions newer than a marker, newest first) and
      `translate` for the number-to-Finnish translator. On completion the
      effects are, in order: the counter post, the save of the advanced
      counter, then for each mention, oldest first, its reply if any and the
      save of its marker. */
  method Run(filename: string, raw: Data, timeline: Value -> seq<Mention>, translate: int -> string) returns (r: RunResult)
    ensures (exists k :: k in CredentialKeys && k !in raw) ==> r == Exited(MissingCredentials(filename))
    ensures r.Exited? <==> exists k :: k in CredentialKeys && k !in raw
    ensures r.CounterNotInteger? <==>
      (forall k :: k in CredentialKeys ==> k in raw) && LastNumberKey in raw && !raw[LastNumberKey].Int?
    ensures r.Completed? ==> LoadConfig(filename, raw).Success?
    ensures r.Completed? ==>
      r.session.log == [Posted(CounterPost(raw, translate)), Saved(Counted(filename, raw))]
        + Trace(Counted(filename, raw), Reverse(timeline(Since(raw))), Responder(translate))
    ensures r.Completed? ==>
      Posts(r.session.log) == [CounterPost(raw, translate)] + RepliesTo(Reverse(timeline(Since(raw))), Responder(translate))
    ensures r.Completed? ==>
      Saves(r.session.log) == [Counted(filename, raw)] + MarkedStates(Counted(filename, raw), Reverse(timeline(Since(raw))))
    ensures r.Completed? ==> AllPostable(Posts(r.session.log))
    ensures r.Completed? ==> EndState(raw, timeline(Since(raw)), r.session.data)
  {
    var loaded := LoadConfig(filename, raw);
    LoadOutcome(filename, raw);
    if loaded.Failure? {
      return Exited(loaded.error);
    }
    var data := loaded.value;
    if !data[LastNumberKey].Int? {
      return CounterNotInteger;
    }
    var n := data[LastNumberKey].i;
    Loaded(filename, raw);
    var counted := data[LastNumberKey := Int(n + 1)];
    assert CounterPost(raw, translate) == Post(BuildTweet(n, "", translate), None);
    assert counted == Counted(filename, raw);
    assert timeline(data[LastMentionKey]) == timeline(Since(raw));
    var done := Proceed(data, n, timeline, translate);
    DataAfterRun(raw, counted, timeline(Since(raw)), done.data);
    r := Completed(done);
  }

  /** Loading succeeds exactly when every credential is present, and the
      loaded counter is a non-integer exactly when the file holds one. */
  lemma LoadOutcome(filename: string, raw: Data)
    ensures LoadConfig(filename, raw).Success? <==> forall k :: k in CredentialKeys ==> k in raw
    ensures LoadConfig(filename, raw).Success? ==>
      (!LoadConfig(filename, raw).value[LastNumberKey].Int? <==> LastNumberKey in raw && !raw[LastNumberKey].Int?)
  {
  }

  /** What the bot reads from a loaded state with an integer counter: the
      counter it posts and the marker it fetches mentions from. */
  lemma Loaded(filename: string, raw: Data)
    requires LoadConfig(filename, raw).Success?
    requires LoadConfig(filename, raw).value[LastNumberKey].Int?
    ensures LoadConfig(filename, raw).value[LastNumberKey].i == Counter(raw)
    ensures LoadConfig(filename, raw).value[LastMentionKey] == Since(raw)
    ensures Counted(filename, raw) == LoadConfig(filename, raw).value[LastNumberKey := Int(Counter(raw) + 1)]
  {
  }

  /** The state a completed run ends in: the keys of the file plus the two
      defaults, the counter one higher, the marker at the newest mention (or
      as loaded when there is none), and every other key as in the file. */
  predicate EndState(raw: Data, ms: seq<Mention>, d: Data) {
    && d.Keys == raw.Keys + {LastNumberKey, LastMentionKey}
    && d[LastNumberKey] == Int(Counter(raw) + 1)
    && d[LastMentionKey] == (if |ms| == 0 then Since(raw) else Int(ms[0].id))
    && forall k :: k in raw && k != LastNumberKey && k != LastMentionKey ==> d[k] == raw[k]
  }

  lemma DataAfterRun(raw: Data, counted: Data, ms: seq<Mention>, d: Data)
    requires counted.Keys == raw.Keys + {LastNumberKey, LastMentionKey}
    requires counted[LastNumberKey] == Int(Counter(raw) + 1)
    requires counted[LastMentionKey] == Since(raw)
    requires forall k :: k in raw && k != LastNumberKey ==> counted[k] == raw[k]
    requires d == if |ms| == 0 then counted else counted[LastMentionKey := Int(ms[0].id)]
    ensures EndState(raw, ms, d)
  {
  }

  /** The run after a successful load with counter `n`: post the number, store
      `n + 1` and save, then handle the mentions newer than the stored marker.
      The state ends with the marker of the newest mention. */
  method Proceed(data: Data, n: int, timeline: Value -> seq<Mention>, translate: int -> string) returns (s: Session)
    requires LastMentionKey in data
    ensures s.log == [Posted(Post(BuildTweet(n, "", translate), None)), Saved(data[LastNumberKey := Int(n + 1)])]
      + Trace(data[LastNumberKey := Int(n + 1)], Reverse(timeline(data[LastMentionKey])), Responder(translate))
    ensures Posts(s.log) == [Post(BuildTweet(n, "", translate), None)]
      + RepliesTo(Reverse(timeline(data[LastMentionKey])), Responder(translate))
    ensures Saves(s.log) == [data[LastNumberKey := Int(n + 1)]]
      + MarkedStates(data[LastNumberKey := Int(n + 1)], Reverse(timeline(data[LastMentionKey])))
    ensures AllPostable(Posts(s.log))
    ensures s.data == if |timeline(data[LastMentionKey])| == 0 then data[LastNumberKey := Int(n + 1)]
      else data[LastNumberKey := Int(n + 1)][LastMentionKey := Int(timeline(data[LastMentionKey])[0].id)]
  {
    var counted := data[LastNumberKey := Int(n + 1)];
    var post := BuildTweet(n, "", translate);
    var start := Session(counted, Publish([], post, None) + [Saved(counted)]);
    assert start.log == [Posted(Post(post, None)), Saved(counted)];
    var ms := timeline(counted[LastMentionKey]);
    assert ms == timeline(data[LastMentionKey]);
    s := CheckReplies(start, ms, translate);
    AfterStart(Post(post, None), counted, ms, translate);
  }

  /** The log before the mentions: one post, then one save. */
  lemma StartLog(p: Post, d: Data)
    ensures Posts([Posted(p), Saved(d)]) == [p]
    ensures Saves([Posted(p), Saved(d)]) == [d]
  {
    var log := [Posted(p), Saved(d)];
    assert log[1..] == [Saved(d)];
    assert log[1..][1..] == [];
  }

  /** Handling mentions after one well-formed post and one save: the post
      comes first, the save first, and every post stays well-formed. */
  lemma AfterStart(p: Post, d: Data, ms: seq<Mention>, translate: int -> string)
    requires Postable(p)
    ensures Posts(CheckReplies(Session(d, [Posted(p), Saved(d)]), ms, translate).log)
      == [p] + RepliesTo(Reverse(ms), Responder(translate))
    ensures Saves(CheckReplies(Session(d, [Posted(p), Saved(d)]), ms, translate).log)
      == [d] + MarkedStates(d, Reverse(ms))
    ensures AllPostable(Posts(CheckReplies(Session(d, [Posted(p), Saved(d)]), ms, translate).log))
  {
    var start := Session(d, [Posted(p), Saved(d)]);
    StartLog(p, d);
    assert AllPostable(Posts(start.log));
    CheckRepliesWellFormed(start, ms, translate);
  }

  /** Mentions retrieved as ids 9, 7, 5 (newest first) are handled 5, 7, 9 and
      leave the marker at 9, whatever was replied. */
  lemma MarkerEndsAtNewest(s: Session, m5: Mention, m7: Mention, m9: Mention, translate: int -> string)
    requires m5.id == 5 && m7.id == 7 && m9.id == 9
    ensures CheckReplies(s, [m9, m7, m5], translate).data[LastMentionKey] == Int(9)
    ensures Saves(CheckReplies(s, [m9, m7, m5], translate).log)
      == Saves(s.log) + [s.data[LastMentionKey := Int(5)], s.data[LastMentionKey := Int(7)], s.data[LastMentionKey := Int(9)]]
  {
    var ms := [m5, m7, m9];
    assert Reverse([m9, m7, m5]) == ms;
    var marked := MarkedStates(s.data, ms);
    assert marked == [s.data[LastMentionKey := Int(5)], s.data[LastMentionKey := Int(7)], s.data[LastMentionKey := Int(9)]];
  }
}

=== FILE: compose.dfy ===
/** `build_tweet`: the text of a post, capped at the platform's length limit. */
module Compose {
  import opened Decimal

  /** The longest text the platform accepts, in characters. */
  const MaxLength: nat := 140

  /** The single glyph that marks a cut text: HORIZONTAL ELLIPSIS, U+2026. */
  const Ellipsis: char := '\U{2026}'

  /** What precedes the translation: `"@" + reply_to + " "` when the handle is
      non-empty (an absent or empty handle is falsy and adds nothing), then
      `str(number)` and a space. */
  function Header(number: int, replyTo: string): (h: string)
    ensures |h| == (if |replyTo| > 0 then |replyTo| + 2 else 0) + |IntToString(number)| + 1
    ensures h[|h| - 1] == ' '
    ensures h[0] == '@' <==> |replyTo| > 0
    ensures |replyTo| > 0 ==> h[1..|replyTo| + 1] == replyTo && h[|replyTo| + 1] == ' '
    ensures h[|h| - 1 - |IntToString(number)|..|h| - 1] == IntToString(number)
  {
    var at := if |replyTo| > 0 then "@" + replyTo + " " else "";
    var h := at + IntToString(number) + " ";
    assert h[|at|] == IntToString(number)[0];
    h
  }

  /** The text before the length cap: the header, then the translation. */
  function Untruncated(number: int, replyTo: string, translate: int -> string): (u: string)
    ensures Header(number, replyTo) <= u
    ensures u[|Header(number, replyTo)|..] == translate(number)
  {
    Header(number, replyTo) + translate(number)
  }

  /** The length cap: a text within the limit is kept as is; a longer one keeps
      its first `MaxLength - 1` characters and gains the ellipsis. */
  function Truncate(s: string): (r: string)
    ensures |r| <= MaxLength
    ensures |s| <= MaxLength ==> r == s
    ensures |s| > MaxLength ==> |r| == MaxLength && r[..MaxLength - 1] <= s && r[MaxLength - 1] == Ellipsis
  {
    if |s| > MaxLength then s[..MaxLength - 1] + [Ellipsis] else s
  }

  /** `build_tweet(number, reply_to)`, with `fino.to_finnish` as `translate`. */
  function BuildTweet(number: int, replyTo: string, translate: int -> string): (r: string)
    ensures 0 < |r| <= MaxLength
    ensures |Untruncated(number, replyTo, translate)| <= MaxLength ==> r == Untruncated(number, replyTo, translate)
    ensures |Untruncated(number, replyTo, translate)| > MaxLength ==>
      && |r| == MaxLength
      && r[..MaxLength - 1] == Untruncated(number, replyTo, translate)[..MaxLength - 1]
      && r[MaxLength - 1] == Ellipsis
  {
    Truncate(Untruncated(number, replyTo, translate))
  }

  /** Capping a capped text changes nothing. */
  lemma TruncateIdempotent(s: string)
    ensures Truncate(Truncate(s)) == Truncate(s)
  {
  }

  /** Every cut keeps the front of the text: whatever fits before the last
      position survives unchanged. */
  lemma TruncateKeepsPrefix(s: string, k: nat)
    requires k < MaxLength && k <= |s|
    ensures k <= |Truncate(s)| && Truncate(s)[..k] == s[..k]
  {
    if |s| > MaxLength {
      assert Truncate(s)[..k] == s[..MaxLength - 1][..k];
    }
  }

  /** When the header fits in front of the cut, the post starts with it: for a
      plain post, the decimal form of the number and a space. */
  lemma BuildTweetKeepsHeader(number: int, replyTo: string, translate: int -> string)
    requires |Header(number, replyTo)| < MaxLength
    ensures |Header(number, replyTo)| <= |BuildTweet(number, replyTo, translate)|
    ensures BuildTweet(number, replyTo, translate)[..|Header(number, replyTo)|] == Header(number, replyTo)
  {
    var h := Header(number, replyTo);
    var u := Untruncated(number, replyTo, translate);
    TruncateKeepsPrefix(u, |h|);
    assert u[..|h|] == h;
  }
}

=== FILE: config.dfy ===
/** The persisted state as `load_yaml` returns it once the file is parsed:
    credentials checked, counter and mention marker defaulted. */
module Config {
  import opened Wrappers

  /** A scalar of the state file: the counter and marker are integers, the
      credentials are strings. */
  datatype Value = Int(i: int) | Text(s: string)

  type Data = map<string, Value>

  const LastNumberKey: string := "last_number"
  const LastMentionKey: string := "last_mention_id"

  /** The four OAuth fields the publisher needs. */
  const CredentialKeys: set<string> :=
    {"oauth_token", "oauth_token_secret", "consumer_key", "consumer_secret"}

  /** The message the process exits with when a credential is missing. */
  function MissingCredentials(filename: string): string {
    "Twitter credentials missing from YAML: " + filename
  }

  /** `load_yaml(filename)` after parsing: fail unless every credential key is
      present; otherwise add `last_number: 0` and `last_mention_id: 1` where
      they are absent and leave every present key as it is. */
  function LoadConfig(filename: string, data: Data): (r: Result<Data, string>)
    ensures r.Failure? <==> exists k :: k in CredentialKeys && k !in data
    ensures r.Failure? ==> r.error == MissingCredentials(filename)
    ensures r.Success? ==> r.value.Keys == data.Keys + {LastNumberKey, LastMentionKey}
    ensures r.Success? ==> forall k :: k in data ==> r.value[k] == data[k]
    ensures r.Success? && LastNumberKey !in data ==> r.value[LastNumberKey] == Int(0)
    ensures r.Success? && LastMentionKey !in data ==> r.value[LastMentionKey] == Int(1)
  {
    if !(CredentialKeys <= data.Keys) then
      Failure(MissingCredentials(filename))
    else
      var withNumber := if LastNumberKey in data then data else data[LastNumberKey := Int(0)];
      var withMention := if LastMentionKey in withNumber then withNumber else withNumber[LastMentionKey := Int(1)];
      Success(withMention)
  }

  /** Loading a state that was itself loaded and saved gives it back unchanged:
      the defaults are only ever applied once. */
  lemma LoadConfigIdempotent(filename: string, data: Data)
    requires LoadConfig(filename, data).Success?
    ensures LoadConfig(filename, LoadConfig(filename, data).value) == LoadConfig(filename, data)
  {
    var d := LoadConfig(filename, data).value;
    assert CredentialKeys <= d.Keys;
    assert LastNumberKey in d && LastMentionKey in d;
  }
}

=== FILE: decimal.dfy ===
/** Decimal numerals: Python's `str(n)` for integers and `int(s)` for a token
    of ASCII digits. */
module Decimal {

  predicate IsDigit(c: char) {
    '0' <= c <= '9'
  }

  predicate AllDigits(s: string) {
    forall i :: 0 <= i < |s| ==> IsDigit(s[i])
  }

  /** Python's `s.isdigit()` on ASCII text: non-empty and every character a
      digit. */
  predicate IsNumeral(s: string) {
    |s| > 0 && AllDigits(s)
  }

  /** The form `str(n)` produces for a natural number: no leading zero except
      for the numeral "0" itself. */
  predicate IsCanonical(s: string) {
    IsNumeral(s) && (|s| == 1 || s[0] != '0')
  }

  function DigitValue(c: char): (d: nat)
    requires IsDigit(c)
    ensures d < 10
  {
    (c as int) - ('0' as int)
  }

  function DigitChar(d: nat): (c: char)
    requires d < 10
    ensures IsDigit(c) && DigitValue(c) == d
  {
    (('0' as int) + d) as char
  }

  /** `int(s)` for a string of digits, read most significant digit first;
      leading zeros are allowed, as `int("007")` is 7. */
  function ParseDigits(s: string): (n: nat)
    requires AllDigits(s)
    ensures |s| > 0 && s[0] == '0' ==> n == ParseDigits(s[1..])
    decreases |s|
  {
    if |s| == 0 then 0
    else
      var p := s[..|s| - 1];
      assert |p| > 1 ==> p[1..] == s[1..][..|s| - 2];
      assert |p| == 1 ==> s[1..][..|s| - 2] == [];
      10 * ParseDigits(p) + DigitValue(s[|s| - 1])
  }

  /** Appending a digit multiplies the value by ten and adds the digit. */
  lemma ParseAppend(s: string, c: char)
    requires AllDigits(s) && IsDigit(c)
    ensures AllDigits(s + [c])
    ensures ParseDigits(s + [c]) == 10 * ParseDigits(s) + DigitValue(c)
  {
    assert (s + [c])[..|s|] == s;
  }

  /** `str(n)` for `n >= 0`. */
  function NatToString(n: nat): (s: string)
    ensures IsCanonical(s)
    decreases n
  {
    if n < 10 then [DigitChar(n)]
    else
      var p := NatToString(n / 10);
      assert (p + [DigitChar(n % 10)])[0] == p[0];
      p + [DigitChar(n % 10)]
  }

  /** `str(i)` for any integer: a minus sign before the digits of a negative. */
  function IntToString(i: int): (s: string)
    ensures i >= 0 ==> IsCanonical(s)
    ensures i < 0 ==> |s| >= 2 && s[0] == '-' && IsCanonical(s[1..]) && s[1] != '0'
    ensures i >= 0 ==> ParseDigits(s) == i
    ensures i < 0 ==> ParseDigits(s[1..]) == -i
  {
    if i >= 0 then
      ParseNatToString(i);
      NatToString(i)
    else
      var d := NatToString(-i);
      ParseNatToString(-i);
      assert ("-" + d)[1..] == d;
      "-" + d
  }

  /** Reading back what `str` wrote gives the number again. */
  lemma {:induction false} ParseNatToString(n: nat)
    ensures ParseDigits(NatToString(n)) == n
    decreases n
  {
    if n >= 10 {
      var p := NatToString(n / 10);
      var s := p + [DigitChar(n % 10)];
      assert s[..|s| - 1] == p;
      ParseNatToString(n / 10);
    }
  }

  /** A numeral whose first digit is not zero denotes a positive number. */
  lemma {:induction false} ParsePositive(s: string)
    requires IsNumeral(s) && s[0] != '0'
    ensures ParseDigits(s) > 0
    decreases |s|
  {
    if |s| > 1 {
      ParsePositive(s[..|s| - 1]);
    }
  }

  /** Writing back what `int` read gives the numeral again, when it is in the
      form `str` writes. */
  lemma {:induction false} NatToStringParse(s: string)
    requires IsCanonical(s)
    ensures NatToString(ParseDigits(s)) == s
    decreases |s|
  {
    var n := ParseDigits(s);
    if |s| > 1 {
      var p := s[..|s| - 1];
      ParsePositive(p);
      NatToStringParse(p);
      assert n / 10 == ParseDigits(p);
      assert n % 10 == DigitValue(s[|s| - 1]);
      assert s == p + [s[|s| - 1]];
    }
  }
}

=== FILE: extract.dfy ===
/** `extract_number_from_tweet`: the first all-digit word of a mention's text. */
module Extract {
  import opened Wrappers
  import opened Strings
  import opened Decimal

  /** The text as the parser sees it: commas removed first, then every
      trailing question mark stripped from the end of the whole text. */
  function Normalize(text: string): (r: string)
    ensures ',' !in r
    ensures |r| == 0 || r[|r| - 1] != '?'
  {
    RStrip(RemoveCommas(text), '?')
  }

  /** Token `j` is a numeral and no earlier token is. */
  predicate FirstNumeralAt(toks: seq<string>, j: int) {
    && 0 <= j < |toks|
    && IsNumeral(toks[j])
    && forall k :: 0 <= k < j ==> !IsNumeral(toks[k])
  }

  /** `[int(s) for s in toks if s.isdigit()]`, keeping only the head: the
      value of the first numeral token, or `None` when there is none. */
  function FirstNumber(toks: seq<string>): (r: Option<nat>)
    ensures r.None? <==> forall j :: 0 <= j < |toks| ==> !IsNumeral(toks[j])
    ensures forall j :: FirstNumeralAt(toks, j) ==> r == Some(ParseDigits(toks[j]))
    decreases |toks|
  {
    if |toks| == 0 then None
    else if IsNumeral(toks[0]) then Some(ParseDigits(toks[0]))
    else
      var r := FirstNumber(toks[1..]);
      forall j | FirstNumeralAt(toks, j)
        ensures FirstNumeralAt(toks[1..], j - 1)
      {
      }
      r
  }

  /** The words of the normalized text, as `text.split()` returns them. */
  function Tokens(text: string): seq<string> {
    Split(Normalize(text))
  }

  /** `extract_number_from_tweet(text)`: the value of the first all-digit
      word of the normalized text, or `None` when no word is all digits. */
  function ExtractNumber(text: string): (r: Option<nat>)
    ensures r.None? <==> forall j :: 0 <= j < |Tokens(text)| ==> !IsNumeral(Tokens(text)[j])
    ensures forall j :: FirstNumeralAt(Tokens(text), j) ==> r == Some(ParseDigits(Tokens(text)[j]))
  {
    FirstNumber(Tokens(text))
  }

  /** Normalizing a text whose head, once its commas are gone, is non-empty
      and does not end in a question mark keeps that head, and keeps the
      whitespace character right after it. */
  lemma NormalizeKeepsHead(d: string, rest: string)
    requires |RemoveCommas(d)| > 0 && RemoveCommas(d)[|RemoveCommas(d)| - 1] != '?'
    requires |rest| > 0 && IsSpace(rest[0])
    ensures Normalize(d + rest) == RemoveCommas(d) + RStrip(RemoveCommas(rest), '?')
    ensures |RStrip(RemoveCommas(rest), '?')| > 0
    ensures IsSpace(RStrip(RemoveCommas(rest), '?')[0])
  {
    RemoveCommasConcat(d, rest);
    RemoveCommasFirst(rest);
    RStripKeepsHead(RemoveCommas(d), RemoveCommas(rest), '?');
    RStripKeepsFirst(RemoveCommas(rest), '?');
  }

  /** A digit is neither a comma, a question mark nor whitespace. */
  lemma NumeralIsPlainWord(d: string)
    requires IsNumeral(d)
    ensures ',' !in d && d[|d| - 1] != '?' && IsWord(d)
  {
    forall i | 0 <= i < |d|
      ensures d[i] != ',' && !IsSpace(d[i])
    {
      assert IsDigit(d[i]);
    }
    assert IsDigit(d[|d| - 1]);
  }

  /** A text that begins with digits, possibly grouped by commas, followed by
      whitespace yields the value of those digits, whatever follows. */
  lemma LeadingNumeral(d: string, rest: string)
    requires IsNumeral(RemoveCommas(d)) && |rest| > 0 && IsSpace(rest[0])
    ensures ExtractNumber(d + rest) == Some(ParseDigits(RemoveCommas(d)))
  {
    var e := RemoveCommas(d);
    NumeralIsPlainWord(e);
    NormalizeKeepsHead(d, rest);
    var q := RStrip(RemoveCommas(rest), '?');
    SplitLeadingWord(e, q);
    var toks := Tokens(d + rest);
    assert toks == [e] + Split(q);
    assert FirstNumeralAt(toks, 0);
  }

  /** A comma-free text not ending in a question mark, laid out as words none
      of which is all digits, yields nothing. */
  lemma NoNumeralWord(text: string, gaps: seq<string>, words: seq<string>)
    requires ValidGaps(gaps, |words|) && text == Interleave(gaps, words)
    requires forall j :: 0 <= j < |words| ==> IsWord(words[j]) && !IsNumeral(words[j])
    requires ',' !in text && (|text| == 0 || text[|text| - 1] != '?')
    ensures ExtractNumber(text) == None
  {
    assert Normalize(text) == text;
    SplitInterleave(gaps, words);
  }

  /** A single comma between two comma-free texts disappears. */
  lemma RemoveOneComma(a: string, b: string)
    requires ',' !in a && ',' !in b
    ensures RemoveCommas(a + [','] + b) == a + b
  {
    RemoveCommasConcat(a + [','], b);
    RemoveCommasConcat(a, [',']);
  }

  /** Digits grouped by one comma, then whitespace: the groups are read as
      one number. */
  lemma GroupedNumeral(text: string, head: string, tail: string, rest: string)
    requires text == head + [','] + tail + rest
    requires IsNumeral(head) && IsNumeral(tail)
    requires |rest| > 0 && IsSpace(rest[0])
    ensures ExtractNumber(text) == Some(ParseDigits(head + tail))
  {
    NumeralIsPlainWord(head);
    NumeralIsPlainWord(tail);
    RemoveOneComma(head, tail);
    assert IsNumeral(head + tail);
    LeadingNumeral(head + [','] + tail, rest);
  }

  /** "1,234 reindeer?" yields 1234: commas vanish and the trailing question
      mark goes before the text is split. */
  lemma ExampleThousands(text: string)
    requires text == "1,234 reindeer?"
    ensures ExtractNumber(text) == Some(1234)
  {
    var head, tail, rest := "1", "234", " reindeer?";
    assert text == head + [','] + tail + rest;
    assert head + tail == "1234";
    Value1234();
    GroupedNumeral(text, head, tail, rest);
  }

  /** `int("1234") == 1234`, one digit at a time. */
  lemma Value1234()
    ensures AllDigits("1234") && ParseDigits("1234") == 1234
  {
    var p1: string := ['1'];
    var p2 := p1 + ['2'];
    var p3 := p2 + ['3'];
    var p4 := p3 + ['4'];
    assert ParseDigits(p1) == 1 by { assert p1[..0] == []; }
    ParseAppend(p1, '2');
    ParseAppend(p2, '3');
    ParseAppend(p3, '4');
    assert p4 == "1234";
  }

  /** "-5 degrees" yields nothing: "-5" is not all digits, so a number read
      from a mention is never negative. */
  lemma ExampleNegative(text: string)
    requires text == "-5 degrees"
    ensures ExtractNumber(text) == None
  {
    var words := ["-5", "degrees"];
    var gaps := ["", " ", ""];
    assert Interleave(gaps, words) == text;
    assert IsWord(words[0]) && !IsDigit(words[0][0]);
    assert IsWord(words[1]) && !IsDigit(words[1][0]);
    NoNumeralWord(text, gaps, words);
  }

  /** "5? ok" yields nothing: the question mark is stripped only from the end
      of the whole text, so "5?" stays one non-numeral word. */
  lemma ExampleInnerQuestionMark(text: string)
    requires text == "5? ok"
    ensures ExtractNumber(text) == None
  {
    var words := ["5?", "ok"];
    var gaps := ["", " ", ""];
    assert Interleave(gaps, words) == text;
    assert IsWord(words[0]) && !IsDigit(words[0][1]);
    assert IsWord(words[1]) && !IsDigit(words[1][0]);
    NoNumeralWord(text, gaps, words);
  }

  /** "no digits here" yields nothing. */
  lemma ExampleNoDigits(text: string)
    requires text == "no digits here"
    ensures ExtractNumber(text) == None
  {
    var words := ["no", "digits", "here"];
    var gaps := ["", " ", " ", ""];
    assert Interleave(gaps, words) == text;
    assert IsWord(words[0]) && !IsDigit(words[0][0]);
    assert IsWord(words[1]) && !IsDigit(words[1][0]);
    assert IsWord(words[2]) && !IsDigit(words[2][0]);
    NoNumeralWord(text, gaps, words);
  }
}

=== FILE: replies.dfy ===
/** `check_replies` and `tweet_it`'s guard: answer each new mention that asks
    for a number, oldest first, and move the mention marker past it. */
module Replies {
  import opened Wrappers
  import opened Strings
  import opened Decimal
  import opened Extract
  import opened Compose
  import opened Config

  /** A mention as the timeline returns it: its id, its text and its author's
      screen name. */
  datatype Mention = Mention(id: int, text: string, author: string)

  /** A post handed to the publisher, possibly in reply to a status id. */
  datatype Post = Post(text: string, inReplyTo: Option<int>)

  /** An effect of the run that outlives it: a post handed to the publisher,
      or a state written back to the file. */
  datatype Event = Posted(post: Post) | Saved(state: Data)

  /** What one run has done so far: the state in memory, and its effects in the
      order they happened. */
  datatype Session = Session(data: Data, log: seq<Event>)

  /** A post the service accepts: non-empty and at most `MaxLength` long. */
  predicate Postable(p: Post) {
    0 < |p.text| <= MaxLength
  }

  predicate AllPostable(posts: seq<Post>) {
    forall i :: 0 <= i < |posts| ==> Postable(posts[i])
  }

  predicate NonEmptyPosts(posts: seq<Post>) {
    forall i :: 0 <= i < |posts| ==> |posts[i].text| > 0
  }

  /** The posts of a log, in order. */
  function Posts(log: seq<Event>): (r: seq<Post>)
    ensures |r| <= |log|
    decreases |log|
  {
    if |log| == 0 then [] else (if log[0].Posted? then [log[0].post] else []) + Posts(log[1..])
  }

  /** The states a log saves, in order. */
  function Saves(log: seq<Event>): (r: seq<Data>)
    ensures |r| <= |log|
    decreases |log|
  {
    if |log| == 0 then [] else (if log[0].Saved? then [log[0].state] else []) + Saves(log[1..])
  }

  /** The posts of a log that grew are the old posts, then the new ones. */
  lemma {:induction false} PostsAppend(a: seq<Event>, b: seq<Event>)
    ensures Posts(a + b) == Posts(a) + Posts(b)
    decreases |a|
  {
    if |a| == 0 {
      assert a + b == b;
    } else {
      assert (a + b)[0] == a[0];
      assert (a + b)[1..] == a[1..] + b;
      PostsAppend(a[1..], b);
      AppendAssoc(if a[0].Posted? then [a[0].post] else [], Posts(a[1..]), Posts(b));
    }
  }

  /** The saves of a log that grew are the old saves, then the new ones. */
  lemma {:induction false} SavesAppend(a: seq<Event>, b: seq<Event>)
    ensures Saves(a + b) == Saves(a) + Saves(b)
    decreases |a|
  {
    if |a| == 0 {
      assert a + b == b;
    } else {
      assert (a + b)[0] == a[0];
      assert (a + b)[1..] == a[1..] + b;
      SavesAppend(a[1..], b);
      AppendAssoc(if a[0].Saved? then [a[0].state] else [], Saves(a[1..]), Saves(b));
    }
  }

  /** `tweet_it`: an empty text is refused and nothing is published; any other
      text is handed to the publisher. It never writes the state file. */
  function Publish(log: seq<Event>, text: string, inReplyTo: Option<int>): (r: seq<Event>)
    ensures |text| == 0 ==> r == log
    ensures |text| > 0 ==> r == log + [Posted(Post(text, inReplyTo))]
    ensures Saves(r) == Saves(log)
    ensures NonEmptyPosts(Posts(log)) ==> NonEmptyPosts(Posts(r))
  {
    if |text| <= 0 then log
    else
      var e := [Posted(Post(text, inReplyTo))];
      PostsAppend(log, e);
      SavesAppend(log, e);
      log + e
  }

  /** `reversed(s)`. */
  function Reverse<T>(s: seq<T>): (r: seq<T>)
    ensures |r| == |s|
    ensures forall i :: 0 <= i < |s| ==> r[i] == s[|s| - 1 - i]
  {
    if |s| == 0 then [] else [s[|s| - 1]] + Reverse(s[..|s| - 1])
  }

  /** The reply to one mention, if any: only when a number is found, it is not
      zero (zero is falsy) and the mention does not already contain its
      translation; the reply is the composed post for the author, sent in
      reply to the mention. */
  function ReplyFor(m: Mention, translate: int -> string): (r: Option<Post>)
    ensures ExtractNumber(m.text).None? ==> r.None?
    ensures ExtractNumber(m.text) == Some(0) ==> r.None?
    ensures ExtractNumber(m.text).Some? && ExtractNumber(m.text).value > 0 ==>
      (r.Some? <==> !Contains(m.text, translate(ExtractNumber(m.text).value)))
    ensures r.Some? ==>
      && r.value.inReplyTo == Some(m.id)
      && 0 < |r.value.text| <= MaxLength
      && r.value.text == BuildTweet(ExtractNumber(m.text).value, m.author, translate)
  {
    match ExtractNumber(m.text)
    case None => None
    case Some(n) =>
      if n != 0 && !Contains(m.text, translate(n)) then
        Some(Post(BuildTweet(n, m.author, translate), Some(m.id)))
      else None
  }

  /** `ReplyFor` with the translator fixed: the decision the loop applies to
      each mention. */
  function Responder(translate: int -> string): Mention -> Option<Post> {
    m => ReplyFor(m, translate)
  }

  /** What `tweet_it` hands to the publisher for a decided reply: nothing for no
      reply or for an empty text, the post otherwise. */
  function Sent(reply: Option<Post>): seq<Post> {
    match reply
    case None => []
    case Some(p) => if |p.text| > 0 then [p] else []
  }

  /** The replies a list of mentions calls for, in the order of the list. */
  function RepliesTo(ms: seq<Mention>, reply: Mention -> Option<Post>): (r: seq<Post>)
    ensures |r| <= |ms|
    decreases |ms|
  {
    if |ms| == 0 then [] else Sent(reply(ms[0])) + RepliesTo(ms[1..], reply)
  }

  /** A post is among the bot's replies exactly when some mention of the list
      calls for it. */
  lemma {:induction false} RepliesToMembers(ms: seq<Mention>, translate: int -> string, p: Post)
    ensures p in RepliesTo(ms, Responder(translate)) <==>
      exists i :: 0 <= i < |ms| && ReplyFor(ms[i], translate) == Some(p)
    decreases |ms|
  {
    if |ms| > 0 {
      var head := Sent(Responder(translate)(ms[0]));
      var tail := RepliesTo(ms[1..], Responder(translate));
      assert RepliesTo(ms, Responder(translate)) == head + tail;
      assert p in head + tail <==> p in head || p in tail;
      HeadReply(ms[0], translate, p);
      RepliesToMembers(ms[1..], translate, p);
      SomeReplySplit(ms, Responder(translate), p);
    }
  }

  /** Some mention of a non-empty list calls for `p` exactly when the first
      one does or some later one does. */
  lemma SomeReplySplit(ms: seq<Mention>, reply: Mention -> Option<Post>, p: Post)
    requires |ms| > 0
    ensures (exists i :: 0 <= i < |ms| && reply(ms[i]) == Some(p)) <==>
      reply(ms[0]) == Some(p) || exists j :: 0 <= j < |ms[1..]| && reply(ms[1..][j]) == Some(p)
  {
    if exists j :: 0 <= j < |ms[1..]| && reply(ms[1..][j]) == Some(p) {
      var j :| 0 <= j < |ms[1..]| && reply(ms[1..][j]) == Some(p);
      assert reply(ms[j + 1]) == Some(p);
    }
    if exists i :: 0 <= i < |ms| && reply(ms[i]) == Some(p) {
      var i :| 0 <= i < |ms| && reply(ms[i]) == Some(p);
      if i > 0 {
        assert reply(ms[1..][i - 1]) == Some(p);
      }
    }
  }

  /** The bot's reply to one mention is sent exactly when it is made. */
  lemma HeadReply(m: Mention, translate: int -> string, p: Post)
    ensures p in Sent(Responder(translate)(m)) <==> ReplyFor(m, translate) == Some(p)
  {
    assert Responder(translate)(m) == ReplyFor(m, translate);
  }

  /** Every reply of the bot is a non-empty post of at most `MaxLength`
      characters sent in reply to a status. */
  lemma {:induction false} RepliesWellFormed(ms: seq<Mention>, translate: int -> string)
    ensures forall p :: p in RepliesTo(ms, Responder(translate)) ==>
      0 < |p.text| <= MaxLength && p.inReplyTo.Some?
    decreases |ms|
  {
    if |ms| > 0 {
      RepliesWellFormed(ms[1..], translate);
      assert Responder(translate)(ms[0]) == ReplyFor(ms[0], translate);
    }
  }

  /** Every reply a decision produces answers the mention it was made for. */
  ghost predicate AnswersMention(reply: Mention -> Option<Post>) {
    forall m :: reply(m).Some? ==> reply(m).value.inReplyTo == Some(m.id)
  }

  lemma ResponderAnswers(translate: int -> string)
    ensures AnswersMention(Responder(translate))
  {
    forall m | Responder(translate)(m).Some?
      ensures Responder(translate)(m).value.inReplyTo == Some(m.id)
    {
      assert Responder(translate)(m) == ReplyFor(m, translate);
    }
  }

  /** The events of handing `posts` to the publisher, in order. */
  function PostEvents(posts: seq<Post>): (r: seq<Event>)
    ensures |r| == |posts|
    ensures forall i :: 0 <= i < |posts| ==> r[i] == Posted(posts[i])
  {
    seq(|posts|, i requires 0 <= i < |posts| => Posted(posts[i]))
  }

  /** Handing posts over records exactly those posts and saves nothing. */
  lemma {:induction false} PostEventsProject(posts: seq<Post>)
    ensures Posts(PostEvents(posts)) == posts
    ensures Saves(PostEvents(posts)) == []
    decreases |posts|
  {
    if |posts| > 0 {
      assert PostEvents(posts)[1..] == PostEvents(posts[1..]);
      PostEventsProject(posts[1..]);
    }
  }

  /** The effects of handling one mention from state `data`: the reply, if one
      is sent, and then the save of the state marked with the mention's id. */
  function Turn(data: Data, m: Mention, reply: Mention -> Option<Post>): (r: seq<Event>)
    ensures Posts(r) == Sent(reply(m))
    ensures Saves(r) == [data[LastMentionKey := Int(m.id)]]
    ensures |r| > 0 && r[|r| - 1] == Saved(data[LastMentionKey := Int(m.id)])
  {
    var sent := PostEvents(Sent(reply(m)));
    var save := [Saved(data[LastMentionKey := Int(m.id)])];
    PostEventsProject(Sent(reply(m)));
    PostsAppend(sent, save);
    SavesAppend(sent, save);
    sent + save
  }

  /** The effects of handling `ms` in order from state `data`. */
  function Trace(data: Data, ms: seq<Mention>, reply: Mention -> Option<Post>): seq<Event>
    decreases |ms|
  {
    if |ms| == 0 then []
    else Turn(data, ms[0], reply) + Trace(data[LastMentionKey := Int(ms[0].id)], ms[1..], reply)
  }

  /** The posts of a trace are the replies the mentions call for. */
  lemma {:induction false} TracePosts(data: Data, ms: seq<Mention>, reply: Mention -> Option<Post>)
    ensures Posts(Trace(data, ms, reply)) == RepliesTo(ms, reply)
    decreases |ms|
  {
    if |ms| > 0 {
      var d := data[LastMentionKey := Int(ms[0].id)];
      PostsAppend(Turn(data, ms[0], reply), Trace(d, ms[1..], reply));
      TracePosts(d, ms[1..], reply);
    }
  }

  /** The saves of a trace are the states marked with each mention's id. */
  lemma {:induction false} TraceSaves(data: Data, ms: seq<Mention>, reply: Mention -> Option<Post>)
    ensures Saves(Trace(data, ms, reply)) == MarkedStates(data, ms)
    decreases |ms|
  {
    if |ms| == 0 {
      assert MarkedStates(data, ms) == [];
    } else {
      var d := data[LastMentionKey := Int(ms[0].id)];
      SavesAppend(Turn(data, ms[0], reply), Trace(d, ms[1..], reply));
      TraceSaves(d, ms[1..], reply);
      MarkedStatesCons(data, ms);
    }
  }

  /** Event `k` of `t` is a reply immediately followed by the save that moves
      the marker to the id it answers. */
  predicate MarkedRightAfter(t: seq<Event>, k: int) {
    && 0 <= k && k + 1 < |t|
    && t[k].Posted? && t[k].post.inReplyTo.Some?
    && t[k + 1].Saved? && LastMentionKey in t[k + 1].state
    && t[k + 1].state[LastMentionKey] == Int(t[k].post.inReplyTo.value)
  }

  /** Every reply is followed at once by the save that marks its mention as
      handled, so no later run answers that mention again. */
  lemma {:induction false} TraceReplyThenMark(data: Data, ms: seq<Mention>, reply: Mention -> Option<Post>)
    requires AnswersMention(reply)
    ensures forall k :: 0 <= k < |Trace(data, ms, reply)| && Trace(data, ms, reply)[k].Posted? ==>
      MarkedRightAfter(Trace(data, ms, reply), k)
    decreases |ms|
  {
    if |ms| > 0 {
      var d := data[LastMentionKey := Int(ms[0].id)];
      var h, rest := Turn(data, ms[0], reply), Trace(d, ms[1..], reply);
      var t := h + rest;
      assert t == Trace(data, ms, reply);
      TraceReplyThenMark(d, ms[1..], reply);
      forall k | 0 <= k < |t| && t[k].Posted?
        ensures MarkedRightAfter(t, k)
      {
        if k < |h| {
          var p := reply(ms[0]).value;
          assert h == [Posted(p), Saved(d)];
          assert t[k] == Posted(p) && t[k + 1] == Saved(d);
        } else {
          assert t[k] == rest[k - |h|];
          assert MarkedRightAfter(rest, k - |h|);
          assert t[k + 1] == rest[k - |h| + 1];
        }
      }
    }
  }

  /** One turn of the loop: reply if called for, then set the marker to this
      mention's id and save, whether or not a reply was made. */
  function Step(s: Session, m: Mention, reply: Mention -> Option<Post>): (r: Session)
    ensures r.data == s.data[LastMentionKey := Int(m.id)]
    ensures r.log == s.log + Turn(s.data, m, reply)
  {
    var log := match reply(m)
      case None => s.log
      case Some(p) => Publish(s.log, p.text, p.inReplyTo);
    var data := s.data[LastMentionKey := Int(m.id)];
    var sent := PostEvents(Sent(reply(m)));
    assert log == s.log + sent;
    AppendAssoc(s.log, sent, [Saved(data)]);
    Session(data, log + [Saved(data)])
  }

  lemma AppendAssoc<T>(a: seq<T>, b: seq<T>, c: seq<T>)
    ensures (a + b) + c == a + (b + c)
  {
  }

  /** Setting the marker twice keeps only the second value. */
  lemma OverwriteMarker(data: Data, a: Value, b: Value)
    ensures data[LastMentionKey := a][LastMentionKey := b] == data[LastMentionKey := b]
  {
  }

  /** The states saved while handling `ms` from state `data`: for each mention,
      in order, the state with the marker set to its id. */
  function MarkedStates(data: Data, ms: seq<Mention>): (r: seq<Data>)
    ensures |r| == |ms|
    ensures forall i :: 0 <= i < |ms| ==> r[i] == data[LastMentionKey := Int(ms[i].id)]
  {
    seq(|ms|, i requires 0 <= i < |ms| => data[LastMentionKey := Int(ms[i].id)])
  }

  /** Setting the marker twice keeps only the second value, so the states saved
      after the first mention are those saved from the first saved state. */
  lemma MarkedStatesCons(data: Data, ms: seq<Mention>)
    requires |ms| > 0
    ensures MarkedStates(data, ms)
      == [data[LastMentionKey := Int(ms[0].id)]] + MarkedStates(data[LastMentionKey := Int(ms[0].id)], ms[1..])
  {
    var d' := data[LastMentionKey := Int(ms[0].id)];
    forall i | 0 <= i < |ms| - 1
      ensures d'[LastMentionKey := Int(ms[1..][i].id)] == data[LastMentionKey := Int(ms[i + 1].id)]
    {
    }
  }

  /** The loop over mentions in processing order: its effects are the turns of
      the mentions one after another, and the marker ends at the last mention
      handled; no other key changes. */
  function Scan(s: Session, ms: seq<Mention>, reply: Mention -> Option<Post>): (r: Session)
    ensures r.data == if |ms| == 0 then s.data else s.data[LastMentionKey := Int(ms[|ms| - 1].id)]
    ensures r.log == s.log + Trace(s.data, ms, reply)
    decreases |ms|
  {
    if |ms| == 0 then
      assert s.log + [] == s.log;
      s
    else
      var s' := Step(s, ms[0], reply);
      var r := Scan(s', ms[1..], reply);
      ScanFirstThenRest(s, ms, reply, s', r);
      r
  }

  /** One turn followed by the rest of the loop is the loop: the step that
      carries `Scan`'s contract from the tail of the list to the whole. */
  lemma {:induction false} ScanFirstThenRest(s: Session, ms: seq<Mention>, reply: Mention -> Option<Post>, s': Session, r: Session)
    requires |ms| > 0
    requires s'.data == s.data[LastMentionKey := Int(ms[0].id)]
    requires s'.log == s.log + Turn(s.data, ms[0], reply)
    requires r.data == if |ms[1..]| == 0 then s'.data else s'.data[LastMentionKey := Int(ms[1..][|ms[1..]| - 1].id)]
    requires r.log == s'.log + Trace(s'.data, ms[1..], reply)
    ensures r.data == s.data[LastMentionKey := Int(ms[|ms| - 1].id)]
    ensures r.log == s.log + Trace(s.data, ms, reply)
  {
    AppendAssoc(s.log, Turn(s.data, ms[0], reply), Trace(s'.data, ms[1..], reply));
    if |ms| > 1 {
      assert ms[1..][|ms[1..]| - 1] == ms[|ms| - 1];
      OverwriteMarker(s.data, Int(ms[0].id), Int(ms[|ms| - 1].id));
    }
  }

  /** Handling two lists one after the other is handling their concatenation. */
  lemma {:induction false} ScanConcat(s: Session, a: seq<Mention>, b: seq<Mention>, reply: Mention -> Option<Post>)
    ensures Scan(s, a + b, reply) == Scan(Scan(s, a, reply), b, reply)
    decreases |a|
  {
    if |a| == 0 {
      assert a + b == b;
    } else {
      assert (a + b)[0] == a[0];
      assert (a + b)[1..] == a[1..] + b;
      ScanConcat(Step(s, a[0], reply), a[1..], b, reply);
    }
  }

  /** `check_replies`: the retrieved list is handled in reverse, so the oldest
      mention first; afterwards the marker is the id of the list's first
      element, or unchanged when the list is empty. The posts sent are the
      replies the mentions call for, and one marked state is saved per mention. */
  function CheckReplies(s: Session, mentions: seq<Mention>, translate: int -> string): (r: Session)
    ensures |mentions| == 0 ==> r == s
    ensures |mentions| > 0 ==> r.data == s.data[LastMentionKey := Int(mentions[0].id)]
    ensures r.log == s.log + Trace(s.data, Reverse(mentions), Responder(translate))
    ensures Posts(r.log) == Posts(s.log) + RepliesTo(Reverse(mentions), Responder(translate))
    ensures Saves(r.log) == Saves(s.log) + MarkedStates(s.data, Reverse(mentions))
  {
    var t := Trace(s.data, Reverse(mentions), Responder(translate));
    PostsAppend(s.log, t);
    SavesAppend(s.log, t);
    TracePosts(s.data, Reverse(mentions), Responder(translate));
    TraceSaves(s.data, Reverse(mentions), Responder(translate));
    Scan(s, Reverse(mentions), Responder(translate))
  }

  /** Handling mentions keeps every post well-formed: each one the bot sends
      is non-empty and at most `MaxLength` characters long. */
  lemma CheckRepliesWellFormed(s: Session, mentions: seq<Mention>, translate: int -> string)
    requires AllPostable(Posts(s.log))
    ensures AllPostable(Posts(CheckReplies(s, mentions, translate).log))
  {
    var replies := RepliesTo(Reverse(mentions), Responder(translate));
    RepliesWellFormed(Reverse(mentions), translate);
    assert AllPostable(replies) by {
      forall i | 0 <= i < |replies|
        ensures Postable(replies[i])
      {
        assert replies[i] in replies;
      }
    }
    AllPostableAppend(Posts(s.log), replies);
  }

  lemma AllPostableAppend(a: seq<Post>, b: seq<Post>)
    requires AllPostable(a) && AllPostable(b)
    ensures AllPostable(a + b)
  {
    forall i | 0 <= i < |a + b|
      ensures Postable((a + b)[i])
    {
      if i >= |a| {
        assert (a + b)[i] == b[i - |a|];
      }
    }
  }

  /** A plain post of a natural number whose digits and the space after them
      survive the cut reads back as that number. */
  lemma ReadBackOwnNumber(n: nat, translate: int -> string)
    requires |NatToString(n)| + 1 < MaxLength || |Untruncated(n, "", translate)| <= MaxLength
    ensures ExtractNumber(BuildTweet(n, "", translate)) == Some(n)
  {
    PlainPostStart(n, translate);
    ReadBackText(NatToString(n), BuildTweet(n, "", translate));
    ParseNatToString(n);
  }

  /** Any text that starts with a numeral and a space yields that numeral's
      value. */
  lemma ReadBackText(d: string, t: string)
    requires IsNumeral(d) && |d| < |t| && t[..|d| + 1] == d + " "
    ensures ExtractNumber(t) == Some(ParseDigits(d))
  {
    var rest := t[|d|..];
    assert t[..|d|] == t[..|d| + 1][..|d|] == d;
    assert t == d + rest;
    assert rest[0] == t[|d|] == t[..|d| + 1][|d|] == ' ';
    NumeralIsPlainWord(d);
    assert RemoveCommas(d) == d;
    LeadingNumeral(d, rest);
  }

  /** Under the same condition, a plain post starts with the digits of its
      number and a space. */
  lemma PlainPostStart(n: nat, translate: int -> string)
    requires |NatToString(n)| + 1 < MaxLength || |Untruncated(n, "", translate)| <= MaxLength
    ensures |NatToString(n)| < |BuildTweet(n, "", translate)|
    ensures BuildTweet(n, "", translate)[..|NatToString(n)| + 1] == NatToString(n) + " "
  {
    var d := NatToString(n);
    assert IntToString(n) == d;
    assert Header(n, "") == d + " ";
    if |d| + 1 < MaxLength {
      BuildTweetKeepsHeader(n, "", translate);
    } else {
      var u := Untruncated(n, "", translate);
      assert BuildTweet(n, "", translate) == u;
      assert u[..|d| + 1] == Header(n, "");
    }
  }

  /** A mention that repeats a plain post of the bot in full, such as a quoted
      retweet, gets no reply: its number is found, but so is its translation. */
  lemma RetweetNotAnswered(m: Mention, n: nat, translate: int -> string)
    requires |Untruncated(n, "", translate)| <= MaxLength
    requires m.text == BuildTweet(n, "", translate)
    ensures ReplyFor(m, translate).None?
  {
    ReadBackOwnNumber(n, translate);
    assert m.text == Header(n, "") + translate(n);
    ContainsSuffix(Header(n, ""), translate(n));
  }

  /** "0 or 5" gets no reply: only the first all-digit word is read, and 0
      is not answered. */
  lemma ExampleZeroFirst(m: Mention, translate: int -> string)
    requires m.text == "0 or 5"
    ensures ExtractNumber(m.text) == Some(0)
    ensures ReplyFor(m, translate).None?
  {
    var d, rest := "0", " or 5";
    assert m.text == d + rest;
    assert RemoveCommas(d) == d;
    assert ParseDigits(d) == 0 by { assert d[..0] == []; }
    LeadingNumeral(d, rest);
  }

  /** "Say 7." gets no reply: "7." is not all digits. */
  lemma ExampleTrailingPeriod(m: Mention, translate: int -> string)
    requires m.text == "Say 7."
    ensures ExtractNumber(m.text) == None
    ensures ReplyFor(m, translate).None?
  {
    var words := ["Say", "7."];
    var gaps := ["", " ", ""];
    assert Interleave(gaps, words) == m.text;
    assert IsWord(words[0]) && !IsDigit(words[0][0]);
    assert IsWord(words[1]) && !IsDigit(words[1][1]);
    NoNumeralWord(m.text, gaps, words);
  }
}

=== FILE: strings.dfy ===
/** The string primitives the bot relies on, with the meaning Python gives them:
    `str.replace(",", "")`, `str.rstrip(c)`, `str.split()` with no argument,
    and the substring test `needle in hay`. */
module Strings {

  /** The ASCII characters that Python's argument-less `split()` treats as
      whitespace: TAB, LF, VT, FF, CR, the four separators 0x1C-0x1F, and SPACE. */
  predicate IsSpace(c: char) {
    ('\t' <= c <= '\r') || ('\U{1C}' <= c <= '\U{1F}') || c == ' '
  }

  predicate AllSpace(w: string) {
    forall i :: 0 <= i < |w| ==> IsSpace(w[i])
  }

  /** A token `split()` can produce: non-empty and free of whitespace. */
  predicate IsWord(t: string) {
    |t| > 0 && forall i :: 0 <= i < |t| ==> !IsSpace(t[i])
  }

  // ---------------------------------------------------------------------------
  // replace(",", "")
  // ---------------------------------------------------------------------------

  /** The text with every comma deleted and every other character kept, in order. */
  function RemoveCommas(s: string): (r: string)
    ensures ',' !in r
    ensures |r| <= |s|
    ensures ',' !in s ==> r == s
  {
    if |s| == 0 then []
    else (if s[0] == ',' then [] else [s[0]]) + RemoveCommas(s[1..])
  }

  /** Deleting commas keeps every other character, each as often as before. */
  lemma {:induction false} RemoveCommasContent(s: string)
    ensures multiset(RemoveCommas(s)) == multiset(s)[',' := 0]
    decreases |s|
  {
    if |s| > 0 {
      assert s == [s[0]] + s[1..];
      RemoveCommasContent(s[1..]);
    }
  }

  /** Deleting commas works piecewise: it distributes over concatenation. */
  lemma {:induction false} RemoveCommasConcat(a: string, b: string)
    ensures RemoveCommas(a + b) == RemoveCommas(a) + RemoveCommas(b)
    decreases |a|
  {
    if |a| == 0 {
      assert a + b == b;
    } else {
      assert (a + b)[1..] == a[1..] + b;
      RemoveCommasConcat(a[1..], b);
    }
  }

  /** A leading character other than a comma survives comma deletion. */
  lemma RemoveCommasFirst(s: string)
    requires |s| > 0 && s[0] != ','
    ensures |RemoveCommas(s)| > 0 && RemoveCommas(s)[0] == s[0]
  {
  }

  // ---------------------------------------------------------------------------
  // rstrip(c)
  // ---------------------------------------------------------------------------

  /** The longest prefix of `s` that does not end in `c`: every trailing `c`
      is removed, and nothing else. */
  function RStrip(s: string, c: char): (r: string)
    ensures r <= s
    ensures |r| == 0 || r[|r| - 1] != c
    ensures forall i :: |r| <= i < |s| ==> s[i] == c
    decreases |s|
  {
    if |s| > 0 && s[|s| - 1] == c then RStrip(s[..|s| - 1], c) else s
  }

  /** The three properties of `RStrip` determine its result. */
  lemma RStripUnique(s: string, c: char, r: string)
    requires r <= s
    requires |r| == 0 || r[|r| - 1] != c
    requires forall i :: |r| <= i < |s| ==> s[i] == c
    ensures r == RStrip(s, c)
  {
    var q := RStrip(s, c);
    assert |q| == 0 || s[|q| - 1] == q[|q| - 1];
    assert |r| == 0 || s[|r| - 1] == r[|r| - 1];
    assert |q| == |r|;
  }

  /** Stripping stops at a prefix that does not end in `c`. */
  lemma RStripKeepsHead(a: string, b: string, c: char)
    requires |a| > 0 && a[|a| - 1] != c
    ensures RStrip(a + b, c) == a + RStrip(b, c)
  {
    var rb := RStrip(b, c);
    var r := a + rb;
    assert r <= a + b by {
      assert rb == b[..|rb|];
    }
    assert r[|r| - 1] != c by {
      if |rb| == 0 { assert r[|r| - 1] == a[|a| - 1]; }
      else { assert r[|r| - 1] == rb[|rb| - 1]; }
    }
    forall i | |r| <= i < |a + b|
      ensures (a + b)[i] == c
    {
      assert (a + b)[i] == b[i - |a|];
    }
    RStripUnique(a + b, c, r);
  }

  /** A leading character other than `c` survives stripping. */
  lemma RStripKeepsFirst(s: string, c: char)
    requires |s| > 0 && s[0] != c
    ensures |RStrip(s, c)| > 0 && RStrip(s, c)[0] == s[0]
  {
    var q := RStrip(s, c);
    var first := s[0];
    assert 0 < |q| || first == c;
    assert q[0] == s[0];
  }

  // ---------------------------------------------------------------------------
  // split()
  // ---------------------------------------------------------------------------

  /** Length of the run of non-whitespace at the start of `s`. */
  function WordRun(s: string): (k: nat)
    ensures k <= |s|
    ensures forall i :: 0 <= i < k ==> !IsSpace(s[i])
    ensures k == |s| || IsSpace(s[k])
  {
    if |s| == 0 || IsSpace(s[0]) then 0 else 1 + WordRun(s[1..])
  }

  /** Python's `s.split()`: the maximal whitespace-free runs of `s`, in order;
      leading, trailing and repeated whitespace produce no empty tokens. */
  function Split(s: string): (toks: seq<string>)
    ensures forall j :: 0 <= j < |toks| ==> IsWord(toks[j])
    decreases |s|
  {
    if |s| == 0 then []
    else if IsSpace(s[0]) then Split(s[1..])
    else
      var k := WordRun(s);
      [s[..k]] + Split(s[k..])
  }

  /** Whitespace in front of a text does not change its tokens. */
  lemma {:induction false} SplitSkipSpace(w: string, u: string)
    requires AllSpace(w)
    ensures Split(w + u) == Split(u)
    decreases |w|
  {
    if |w| == 0 {
      assert w + u == u;
    } else {
      assert (w + u)[0] == w[0];
      assert (w + u)[1..] == w[1..] + u;
      SplitSkipSpace(w[1..], u);
    }
  }

  /** A string made only of whitespace has no tokens. */
  lemma SplitAllSpace(w: string)
    requires AllSpace(w)
    ensures Split(w) == []
  {
    SplitSkipSpace(w, []);
    assert w + [] == w;
  }

  /** The leading word run ends exactly where the first whitespace is. */
  lemma WordRunIs(s: string, n: nat)
    requires n <= |s|
    requires forall i :: 0 <= i < n ==> !IsSpace(s[i])
    requires n == |s| || IsSpace(s[n])
    ensures WordRun(s) == n
  {
  }

  /** Whitespace, then a word, then the end or more whitespace: the word is the
      first token and the rest is split on its own. */
  lemma SplitWordThenRest(w: string, t: string, rest: string)
    requires AllSpace(w) && IsWord(t)
    requires |rest| == 0 || IsSpace(rest[0])
    ensures Split(w + t + rest) == [t] + Split(rest)
  {
    assert w + t + rest == w + (t + rest);
    SplitSkipSpace(w, t + rest);
    SplitLeadingWord(t, rest);
  }

  /** A word at the very start, followed by the end or whitespace, is the
      first token. */
  lemma SplitLeadingWord(t: string, rest: string)
    requires IsWord(t)
    requires |rest| == 0 || IsSpace(rest[0])
    ensures Split(t + rest) == [t] + Split(rest)
  {
    var s := t + rest;
    assert s[0] == t[0];
    assert forall i :: 0 <= i < |t| ==> s[i] == t[i];
    assert |t| == |s| || s[|t|] == rest[0];
    WordRunIs(s, |t|);
    assert s[..|t|] == t;
    assert s[|t|..] == rest;
  }

  /** `gaps[0] + toks[0] + gaps[1] + ... + toks[n-1] + gaps[n]`. */
  function Interleave(gaps: seq<string>, toks: seq<string>): string
    requires |gaps| == |toks| + 1
    decreases |toks|
  {
    if |toks| == 0 then gaps[0] else gaps[0] + toks[0] + Interleave(gaps[1..], toks[1..])
  }

  /** Separators a text may have around and between `n` tokens: whitespace only,
      and non-empty between two tokens. */
  predicate ValidGaps(gaps: seq<string>, n: nat) {
    && |gaps| == n + 1
    && (forall i :: 0 <= i < |gaps| ==> AllSpace(gaps[i]))
    && (forall i :: 0 < i < n ==> |gaps[i]| > 0)
  }

  /** `split()` recovers the words of any text laid out as whitespace-separated
      words, whatever whitespace surrounds and separates them. */
  lemma {:induction false} SplitInterleave(gaps: seq<string>, toks: seq<string>)
    requires ValidGaps(gaps, |toks|)
    requires forall j :: 0 <= j < |toks| ==> IsWord(toks[j])
    ensures Split(Interleave(gaps, toks)) == toks
    decreases |toks|
  {
    if |toks| == 0 {
      SplitAllSpace(gaps[0]);
    } else {
      var rest := Interleave(gaps[1..], toks[1..]);
      assert ValidGaps(gaps[1..], |toks| - 1);
      if |toks| > 1 {
        assert rest == gaps[1] + toks[1] + Interleave(gaps[2..], toks[2..]);
        assert rest[0] == gaps[1][0];
      } else {
        assert rest == gaps[1];
      }
      SplitWordThenRest(gaps[0], toks[0], rest);
      SplitInterleave(gaps[1..], toks[1..]);
    }
  }

  // ---------------------------------------------------------------------------
  // needle in hay
  // ---------------------------------------------------------------------------

  /** `needle` occurs in `hay` starting at position `i`. */
  predicate OccursAt(hay: string, needle: string, i: int) {
    0 <= i <= |hay| - |needle| && hay[i..i + |needle|] == needle
  }

  /** Python's `needle in hay` for strings: `needle` occurs at some position of
      `hay` (the empty string occurs everywhere). */
  function Contains(hay: string, needle: string): (b: bool)
    ensures b <==> exists i :: OccursAt(hay, needle, i)
    decreases |hay|
  {
    if needle <= hay then
      assert OccursAt(hay, needle, 0);
      true
    else if |hay| == 0 then false
    else
      var b := Contains(hay[1..], needle);
      if b then
        var i :| OccursAt(hay[1..], needle, i);
        assert hay[i + 1..i + 1 + |needle|] == hay[1..][i..i + |needle|];
        assert OccursAt(hay, needle, i + 1);
        true
      else
        forall i | OccursAt(hay, needle, i)
          ensures OccursAt(hay[1..], needle, i - 1)
        {
          assert i != 0;
          assert hay[1..][i - 1..i - 1 + |needle|] == hay[i..i + |needle|];
        }
        false
  }

  /** A text contains every string it ends with. */
  lemma ContainsSuffix(prefix: string, suffix: string)
    ensures Contains(prefix + suffix, suffix)
  {
    var hay := prefix + suffix;
    assert hay[|prefix|..|prefix| + |suffix|] == suffix;
    assert OccursAt(hay, suffix, |prefix|);
  }
}

=== FILE: wrappers.dfy ===
/** `Option` stands for Python's `None`-or-value returns, `Result` for a
    computation that can end the process with a message. */
module Wrappers {

  datatype Option<+T> = None | Some(value: T)

  datatype Result<+R, +E> = Success(value: R) | Failure(error: E)
}
